=== FILE: README.md ===
# DOI-Extract: a Dafny model of the metadata lookup core

DOI-Extract is a small HTTP service. It takes a DOI, queries the CrossRef
open-URL endpoint for the `unixref` XML record, and reshapes the parsed
record into a flat JSON metadata object. This project models the pure logic
inside `getDOIMetadata` in `index.js`. That logic has two parts.

- **DOI normalisation** (`Doi.Normalize`). Four prefix checks run in a
  fixed order: `https://`, `http://`, `dx.`, `doi.org/`. Each check sees the
  string the earlier checks left and strips its prefix at most once.
- **Response handling** (`Extractor.Extract`). It takes the response's `ok`
  flag, the parsed XML tree and the normalised DOI, and returns either the
  metadata record or the message of the error the code throws.

The parsed tree is a JavaScript value (`JsValue.Val`): `undefined`, `null`,
string, integer, array, or object with ordered fields. The JavaScript
semantics the extractor relies on are spelled out in `JsValue`:
truthiness, optional member access `v?.[key]`, `a || b`, `String(v)` and
`Array.prototype.join`. Errors are `Result` values whose error part is the
thrown message.

Modules, one per file:

- `results.dfy`: `Result` and `Option`.
- `jsvalue.dfy`: the parsed tree and the JavaScript semantics above.
- `doi.dfy`: normalisation.
- `query.dfy`: the registry query, kept as an endpoint plus an ordered list
  of parameters.
- `extractor.dfy`: `getNodeData`, the author, year and title handling, and
  `Extract`.
- `properties.dfy`: what a returned record holds, stated against paths in
  the tree.
- `service.dfy`: `getDOIMetadata` as a whole, from the raw DOI to the
  outcome.
- `examples.dfy`: worked cases.

Three behaviours of the code are worth stating on their own:

- Normalisation is not idempotent: `"doi.org/doi.org/x"` becomes
  `"doi.org/x"`, and a second pass gives `"x"`
  (`Doi.NormalizeNotIdempotentDoiOrg`, `Doi.NormalizeNotIdempotentHttps`).
  `Doi.NormalizeTwice` says exactly when a second pass changes nothing.
- A lone, non-array `person_name` is always written
  `${surname}, ${given_name}`, so a missing part appears as the text
  `undefined` (`ExtractorExamples.LoneAuthorWithoutGivenName`).
- A missing title node fails as well as a missing journal node, because
  `Object.values(undefined)` throws
  (`ExtractorProperties.ExtractFailsWithoutTitle`).

The record's `abstract` key is the field `abstractText`, because `abstract`
is a reserved word in Dafny.

## Model

| member | source | states |
|---|---|---|
| JsValue.Truthy | index.js:43 | `undefined`, `null`, `""` and `0` are the falsy values, so a nullish value is never truthy |
| JsValue.Or | index.js:58-60 | the logical-or operator gives its left operand when that is truthy and its right operand otherwise; so it is truthy exactly when one of its operands is |
| JsValue.Lookup | index.js:40-41 | a member read on an object gives the value of the first field with that name, and `undefined` when no field has it |
| JsValue.Get | index.js:40-41 | optional member access gives `undefined` on anything that is not an object, and otherwise the object's field with that name as `Lookup` finds it |
| JsValue.GetPathOfUndef | index.js:40-41 | once an optional chain reaches `undefined`, every further `?.[key]` step also gives `undefined` |
| JsValue.GetPathAppend | index.js:68-72 | following a chain of optional accesses `p + q` is the same as following `p` and then `q` |
| JsValue.IntToDecimal | index.js:59 | a number inserted into a template literal becomes a `-` exactly when it is negative, followed by decimal digits with no leading zero |
| JsValue.IntToDecimalValue | index.js:59 | the digits of that text denote the number's magnitude, so the text reads back as the number |
| JsValue.ToJsString | index.js:58-65 | a template literal inserts a string as it is, and writes out every other non-array value, including `undefined` and `null`, as non-empty text |
| JsValue.Join | index.js:86 | joining no values gives the empty text, and joining one value gives its string form, or nothing for `undefined` and `null` |
| JsValue.JoinAppend | index.js:86 | joining two non-empty runs of values gives the two joins with one separator between them |
| JsValue.JoinNullishLast | index.js:86 | an `undefined` or `null` element adds its separator but no text to a join |
| Doi.StripPrefix | index.js:15 | a single check removes its prefix exactly when the string starts with it, and leaves the string unchanged otherwise |
| Doi.Normalize | index.js:15-18 | the result is a suffix of the input and at most 26 characters shorter; it equals the input exactly when the input starts with none of the four prefixes |
| Doi.NormalizeStripsChain | index.js:15-18 | putting any in-order selection of the four prefixes in front of a bare DOI, then normalising, gives back that DOI |
| Doi.NormalizeRemovesChain | index.js:15-18 | whatever normalisation removes is such an in-order selection of the four prefixes |
| Doi.NormalizeTwice | index.js:15-18 | normalising a second time changes nothing exactly when the first result starts with none of the four prefixes |
| Doi.NormalizeHttpsUrl | index.js:15-18 | `https://doi.org/10.1000/xyz123` normalises to `10.1000/xyz123` |
| Doi.NormalizeDxForm | index.js:17-18 | `dx.doi.org/10.1000/xyz123` normalises to `10.1000/xyz123`, with both the `dx.` and the `doi.org/` checks firing |
| Doi.NormalizeStripsAllFour | index.js:15-18 | all four checks can fire on one input, so the 26-character bound is reached |
| Doi.NormalizeNotIdempotentDoiOrg | index.js:18 | a repeated `doi.org/` is stripped once, so a second pass changes `doi.org/x` again, to `x` |
| Doi.NormalizeNotIdempotentHttps | index.js:15 | a repeated `https://` is stripped once, so a second pass changes `https://x` again, to `x` |
| CrossRefQuery.Names | index.js:21-26 | the parameter names are listed in serialisation order, one per parameter |
| CrossRefQuery.Param | index.js:21-28 | looking a parameter up gives the value of the first parameter with that name, and nothing when no parameter has it |
| CrossRefQuery.CrossRefUrl | index.js:21-28 | the query goes to the open-URL endpoint and its `id` parameter is the DOI behind the `doi:` scheme |
| CrossRefQuery.QueriedDoi | index.js:22 | a DOI read back from a query URL is the `id` parameter with its `doi:` scheme removed |
| CrossRefQuery.CrossRefUrlRoundTrip | index.js:21-28 | reading the query URL back gives the DOI it was built for, `noredirect=true`, the fixed contact key and `format=unixref`, under four names in that fixed order |
| CrossRefQuery.CrossRefUrlInjective | index.js:21-28 | different DOIs are never sent as the same query |
| Extractor.NodeData | index.js:47-49 | `getNodeData` returns `null` or a truthy value: the member's value when it is truthy, and `null` for a missing container, a missing member or a falsy one |
| Extractor.JournalNode | index.js:40-41 | reading the journal record fails only for a nullish document; otherwise it is the value at `doi_records/doi_record/crossref/journal` |
| Extractor.PersonEntry | index.js:55-61 | an author-array entry is truthy exactly when the surname or the given name is; with only a surname it is that surname; with a falsy surname it is the given name, whatever that is |
| Extractor.PersonEntries | index.js:54-61 | the array branch gives one entry per person, in the same order, with no merging |
| Extractor.SingleEntry | index.js:62-66 | a lone author's text is never empty, and with string name parts it is `"Surname, Given"` |
| Extractor.Authors | index.js:51-66 | a missing or falsy `person_name` gives no authors; an array gives its mapped entries; any other value gives exactly one `"S, G"` string |
| Extractor.Year | index.js:68-73 | the year is the first date's `year` when `publication_date` is a non-empty array, `undefined` for an empty array, and the lone date's `year` otherwise |
| Extractor.ObjectValues | index.js:84-86 | `Object.values` gives a string's characters, and an object's field values in field order |
| Extractor.Title | index.js:84-86 | the title join fails, with the runtime's `Object.values` error, exactly when the title node is `undefined` or `null` |
| Extractor.Record | index.js:75-99 | each of the eight `getNodeData` fields is the value at its fixed path under the journal record when that value is truthy and `null` otherwise; the title and the query URL are the ones given |
| Extractor.Extract | index.js:32-98 | a non-ok response fails with "Failed to fetch metadata from CrossRef" whatever the body holds; every returned record carries the query URL built from the DOI it is given |
| ExtractorProperties.ExtractFailsUnreadable | index.js:40-41 | with an ok status, a document that is `undefined` or `null` fails with the runtime's read error for `doi_records` |
| ExtractorProperties.ExtractFailsWithoutJournal | index.js:40-45 | with an ok status and a readable document, a missing or falsy journal record fails with "No metadata found for the given DOI" |
| ExtractorProperties.ExtractFailsWithoutTitle | index.js:84-86 | with an ok status and a truthy journal record, a missing title node fails with the runtime's `Object.values` error and not with a null title |
| ExtractorProperties.ExtractSucceeds | index.js:32-86 | a record is returned exactly when the status is ok, the document is readable, the journal record is truthy and its article has a title node |
| ExtractorProperties.ExtractFields | index.js:47-98 | when a record is returned, each of the journal names, volume, issue, pages, DOI and abstract is the `getNodeData` rule applied at its fixed path under the journal record; the provenance URL reads back as the requested DOI |
| ExtractorProperties.ExtractTitle | index.js:84-86 | the title of a returned record is the title node's values joined with no separator, and a plain-text title comes back unchanged |
| ExtractorProperties.ExtractYear | index.js:68-73 | when a record is returned, its `year` is the first date's `year` when `publication_date` is an array, `undefined` for an empty array, and the lone date's `year` otherwise |
| ExtractorProperties.YearFirstDateWins | index.js:68-73 | listing several publication dates gives the same year as the first of them given on its own |
| ExtractorProperties.ExtractAuthors | index.js:51-66 | in a returned record, `authors` is empty for a missing `person_name`, has one entry per element in order for an array, and has exactly one entry for a lone record |
| ExtractorProperties.PersonEntriesAppend | index.js:55-61 | mapping the persons of two runs gives the two author lists one after the other, so order is kept and nothing is dropped |
| ExtractorProperties.PersonEntryOfStrings | index.js:56-60 | in an author array, two non-empty names give `"Surname, Given"`, and a person with one non-empty name gives that name alone, whatever the field order and whatever other fields the person record has |
| ExtractorProperties.SingleEntryVersusArrayEntry | index.js:54-66 | a lone person is formatted like an array element exactly when both name parts are truthy |
| ExtractorProperties.SingleEntryOfMissing | index.js:63-65 | in a lone person record, a missing name part is written as `undefined` |
| ExtractorProperties.TitleOfText | index.js:84-86 | a plain-text title comes back unchanged |
| ExtractorProperties.TitleOfParts | index.js:84-86 | a title split into text sub-nodes is their concatenation in document order, with no separator |
| ExtractorExamples.SingleAuthor | index.js:62-66 | a lone Smith/Jane record gives the author list `["Smith, Jane"]` |
| ExtractorExamples.TwoAuthorsInOrder | index.js:54-61 | two author records give two entries in document order |
| ExtractorExamples.GivenNameFirst | index.js:55-60 | a person record with the given name first and an ORCID field still gives `"Smith, Jane"` |
| ExtractorExamples.PlainTitle | index.js:84-86 | a returned record whose title node is the text `Dafny by example` has that title |
| ExtractorExamples.FirstOfTwoDates | index.js:68-70 | with dates of 2019 and 2020, in that order, the reported year is 2019 |
| ExtractorExamples.LoneAuthorWithoutGivenName | index.js:54-66 | a lone record with only the surname Smith gives `"Smith, undefined"`; the same record inside an array gives `"Smith"` |
| ExtractorExamples.EmptyResponseNotFound | index.js:40-45 | a response with an empty `doi_records` fails with "No metadata found for the given DOI" |
| Service.GetDoiMetadata | index.js:11-99 | a non-ok response fails with "Failed to fetch metadata from CrossRef"; every returned record's provenance URL reads back as the normalised form of the DOI that was asked for |
| Service.GetDoiMetadataSucceeds | index.js:11-99 | a record is returned exactly when the response is ok, readable, has a truthy journal record and a title node, whatever DOI was asked for |
| Service.PrefixedFormsAgree | index.js:15-28 | a bare DOI and the same DOI behind any in-order selection of the four prefixes give the same outcome for the same response |

## Left out

- The `node-fetch` request and `response.text()` (index.js:30-36) are network I/O. The model takes the response's `ok` flag and the parsed body as inputs. A failure while reading the body is not modelled.
- XML parsing with `fast-xml-parser` (index.js:38-39) is a library. Its output is the input tree `JsValue.Val`. Numeric leaves are integers only: the parser's floating-point coercion and `NaN` are not modelled.
- The percent-encoding done by `URLSearchParams.toString()` (index.js:28) is library behaviour. The provenance URL is kept as the endpoint and its ordered parameter list (`CrossRefQuery.Url`), not as text.
- Member access reads only an object's own fields. Built-in properties such as a string's or an array's `length`, and inherited members, are not modelled. None of the names the extractor reads is such a property.
- `Object.values` lists integer-like keys first in JavaScript. The model keeps field order, because XML element names cannot look like integers.
- An object with two fields of the same name is read by its first field. The parser never produces one, because it turns repeated elements into arrays.
- JsValue.IntToDecimal: integer leaves are taken to be below 10^21 in magnitude. From there on JavaScript's `String(n)` switches to exponent form (`1e+21`), which is not modelled.
- JsValue.ToJsString: string conversion ignores an object's own `toString` member. In JavaScript the template literals (index.js:59, 65) and the title join (index.js:86) call `toString` first; when an object's own `toString` is not callable they fall back to the inherited `valueOf`, which returns the object, and throw "Cannot convert object to primitive value". An author whose name part is such an object would then fail before the title is read. A name part or title sub-node that is an object holding an element named `toString` does this; the model converts such an object to `[object Object]` instead. An own `valueOf` alone changes nothing, because `toString` runs first.
- Extractor.ObjectValues: strings are sequences of Unicode scalar values, while JavaScript splits a string into UTF-16 code units. For a title string with characters above U+FFFF, `Object.values` has more elements in JavaScript than in the model. The joined title is the same either way.
- Express routing, CORS, the uniform 500 error envelope, `app.listen` and the port expression (index.js:5-9, 104-118) are HTTP plumbing, and are out of scope.

=== FILE: doi.dfy ===
/** DOI normalisation: the four prefix strips applied to the raw path
    segment before the registry is queried (index.js:15-18). */
module Doi {

  const HttpsPrefix: string := "https://"
  const HttpPrefix: string := "http://"
  const DxPrefix: string := "dx."
  const DoiOrgPrefix: string := "doi.org/"

  /** The most characters one normalisation can remove: every prefix once. */
  const MaxStripped: nat := |HttpsPrefix| + |HttpPrefix| + |DxPrefix| + |DoiOrgPrefix|

  /** `s.startsWith(p) ? s.slice(|p|) : s` */
  function StripPrefix(s: string, p: string): (r: string)
    ensures p <= s ==> s == p + r
    ensures !(p <= s) ==> r == s
  {
    if p <= s then s[|p|..] else s
  }

  /** A string none of the four rules would touch. */
  predicate Bare(s: string) {
    && !(HttpsPrefix <= s)
    && !(HttpPrefix <= s)
    && !(DxPrefix <= s)
    && !(DoiOrgPrefix <= s)
  }

  /** The four checks in source order, each seeing the string the previous
      ones left and stripping its prefix at most once. */
  function Normalize(raw: string): (doi: string)
    ensures |raw| - MaxStripped <= |doi| <= |raw|
    ensures doi == raw[|raw| - |doi|..]
    ensures doi == raw <==> Bare(raw)
  {
    var afterHttps := StripPrefix(raw, HttpsPrefix);
    var afterHttp := StripPrefix(afterHttps, HttpPrefix);
    var afterDx := StripPrefix(afterHttp, DxPrefix);
    StripPrefix(afterDx, DoiOrgPrefix)
  }

  /** `p` when `b` holds, nothing otherwise. */
  function Opt(b: bool, p: string): string {
    if b then p else ""
  }

  /** The prefixes a single normalisation can remove, chosen independently
      and written in the order the checks run. */
  function Chain(https: bool, http: bool, dx: bool, doiOrg: bool): string {
    Opt(https, HttpsPrefix) + Opt(http, HttpPrefix) + Opt(dx, DxPrefix) + Opt(doiOrg, DoiOrgPrefix)
  }

  lemma StripOwnPrefix(p: string, s: string)
    ensures StripPrefix(p + s, p) == s
  {
    assert (p + s)[..|p|] == p;
    assert (p + s)[|p|..] == s;
  }

  lemma DiffersAt(p: string, s: string, i: nat)
    requires i < |p| && i < |s| && p[i] != s[i]
    ensures !(p <= s)
  {
  }

  /** One check applied to an optional copy of its own prefix followed by a
      string that does not start with that prefix. */
  lemma StripStage(b: bool, p: string, s: string)
    requires !(p <= s)
    ensures StripPrefix(Opt(b, p) + s, p) == s
  {
    if b {
      StripOwnPrefix(p, s);
    } else {
      assert Opt(b, p) + s == s;
    }
  }

  /** The last two checks undo `dx.` and `doi.org/` in front of a bare
      string, and what they see starts with no scheme. */
  lemma StripsHostPart(dx: bool, doiOrg: bool, x: string)
    requires Bare(x)
    ensures var c2 := Opt(dx, DxPrefix) + (Opt(doiOrg, DoiOrgPrefix) + x);
      && !(HttpsPrefix <= c2)
      && !(HttpPrefix <= c2)
      && StripPrefix(StripPrefix(c2, DxPrefix), DoiOrgPrefix) == x
  {
    var c3 := Opt(doiOrg, DoiOrgPrefix) + x;
    var c2 := Opt(dx, DxPrefix) + c3;
    if doiOrg {
      DiffersAt(DxPrefix, c3, 1);
      DiffersAt(HttpPrefix, c3, 0);
      DiffersAt(HttpsPrefix, c3, 0);
    }
    if dx {
      DiffersAt(HttpPrefix, c2, 0);
      DiffersAt(HttpsPrefix, c2, 0);
    }
    StripStage(doiOrg, DoiOrgPrefix, x);
    StripStage(dx, DxPrefix, c3);
  }

  /** A chain followed by a string, regrouped stage by stage. */
  lemma ChainThen(https: bool, http: bool, dx: bool, doiOrg: bool, x: string)
    ensures Chain(https, http, dx, doiOrg) + x
      == Opt(https, HttpsPrefix) + (Opt(http, HttpPrefix) + (Opt(dx, DxPrefix) + (Opt(doiOrg, DoiOrgPrefix) + x)))
  {
    var a, b, c, d := Opt(https, HttpsPrefix), Opt(http, HttpPrefix), Opt(dx, DxPrefix), Opt(doiOrg, DoiOrgPrefix);
    calc {
      Chain(https, http, dx, doiOrg) + x;
      ((a + b) + c) + d + x;
      { assert ((a + b) + c) + d + x == (a + b) + c + (d + x); }
      (a + b) + c + (d + x);
      { assert (a + b) + c + (d + x) == a + (b + (c + (d + x))); }
      a + (b + (c + (d + x)));
    }
  }

  /** Normalisation as its four stages, named. */
  lemma NormalizeStages(c0: string, c1: string, c2: string, x: string)
    requires StripPrefix(c0, HttpsPrefix) == c1
    requires StripPrefix(c1, HttpPrefix) == c2
    requires StripPrefix(StripPrefix(c2, DxPrefix), DoiOrgPrefix) == x
    ensures Normalize(c0) == x
  {
  }

  /** Normalisation undoes any chain of prefixes put in front of a bare DOI. */
  lemma NormalizeStripsChain(https: bool, http: bool, dx: bool, doiOrg: bool, x: string)
    requires Bare(x)
    ensures Normalize(Chain(https, http, dx, doiOrg) + x) == x
  {
    var c2 := Opt(dx, DxPrefix) + (Opt(doiOrg, DoiOrgPrefix) + x);
    var c1 := Opt(http, HttpPrefix) + c2;
    var c0 := Opt(https, HttpsPrefix) + c1;
    ChainThen(https, http, dx, doiOrg, x);
    StripsHostPart(dx, doiOrg, x);
    if http {
      DiffersAt(HttpsPrefix, c1, 4);
    }
    StripStage(http, HttpPrefix, c2);
    StripStage(https, HttpsPrefix, c1);
    NormalizeStages(c0, c1, c2, x);
  }

  /** Conversely, what normalisation removes is always such a chain. */
  lemma NormalizeRemovesChain(raw: string)
    ensures exists https, http, dx, doiOrg :: raw == Chain(https, http, dx, doiOrg) + Normalize(raw)
  {
    var https := HttpsPrefix <= raw;
    var c1 := StripPrefix(raw, HttpsPrefix);
    var http := HttpPrefix <= c1;
    var c2 := StripPrefix(c1, HttpPrefix);
    var dx := DxPrefix <= c2;
    var c3 := StripPrefix(c2, DxPrefix);
    var doiOrg := DoiOrgPrefix <= c3;
    var doi := StripPrefix(c3, DoiOrgPrefix);
    assert raw == Opt(https, HttpsPrefix) + c1;
    assert c1 == Opt(http, HttpPrefix) + c2;
    assert c2 == Opt(dx, DxPrefix) + c3;
    assert c3 == Opt(doiOrg, DoiOrgPrefix) + doi;
    NormalizeStages(raw, c1, c2, doi);
    ChainThen(https, http, dx, doiOrg, doi);
  }

  /** Normalising twice changes nothing exactly when the first result is
      bare; since it need not be, normalisation is not idempotent. */
  lemma NormalizeTwice(raw: string)
    ensures Normalize(Normalize(raw)) == Normalize(raw) <==> Bare(Normalize(raw))
  {
  }

  /** A bare DOI of the registry's `10.` form. */
  lemma ExampleDoiIsBare()
    ensures Bare("10.1000/xyz123")
  {
    var d := "10.1000/xyz123";
    DiffersAt(HttpsPrefix, d, 0);
    DiffersAt(HttpPrefix, d, 0);
    DiffersAt(DxPrefix, d, 0);
    DiffersAt(DoiOrgPrefix, d, 0);
  }

  /** The resolver's https URL form reduces to the bare DOI. */
  lemma NormalizeHttpsUrl()
    ensures Normalize("https://doi.org/10.1000/xyz123") == "10.1000/xyz123"
  {
    var d := "10.1000/xyz123";
    ExampleDoiIsBare();
    var c := Chain(true, false, false, true);
    assert c == "https://doi.org/";
    assert c + d == "https://doi.org/10.1000/xyz123";
    NormalizeStripsChain(true, false, false, true, d);
  }

  /** The scheme-less `dx.` form reduces to the bare DOI as well: the `dx.`
      and the `doi.org/` checks both fire. */
  lemma NormalizeDxForm()
    ensures Normalize("dx.doi.org/10.1000/xyz123") == "10.1000/xyz123"
  {
    var d := "10.1000/xyz123";
    ExampleDoiIsBare();
    var c := Chain(false, false, true, true);
    assert c == "dx.doi.org/";
    assert c + d == "dx.doi.org/10.1000/xyz123";
    NormalizeStripsChain(false, false, true, true, d);
  }

  /** All four checks can fire on one input, so `MaxStripped` is reached. */
  lemma NormalizeStripsAllFour()
    ensures Normalize("https://http://dx.doi.org/x") == "x"
    ensures |"https://http://dx.doi.org/x"| - |"x"| == MaxStripped
  {
    DiffersAt(HttpsPrefix, "x", 0);
    DiffersAt(HttpPrefix, "x", 0);
    DiffersAt(DxPrefix, "x", 0);
    DiffersAt(DoiOrgPrefix, "x", 0);
    var c := Chain(true, true, true, true);
    assert c == "https://http://dx.doi.org/";
    assert c + "x" == "https://http://dx.doi.org/x";
    NormalizeStripsChain(true, true, true, true, "x");
  }

  /** A repeated `doi.org/` is stripped once, so a second normalisation
      still changes the result: normalisation is not idempotent. */
  lemma NormalizeNotIdempotentDoiOrg()
    ensures Normalize("doi.org/doi.org/x") == "doi.org/x"
    ensures Normalize("doi.org/x") == "x"
  {
    var s, t := "doi.org/doi.org/x", "doi.org/x";
    DiffersAt(HttpsPrefix, s, 0);
    DiffersAt(HttpPrefix, s, 0);
    DiffersAt(DxPrefix, s, 1);
    assert s == DoiOrgPrefix + t;
    StripOwnPrefix(DoiOrgPrefix, t);
    NormalizeStages(s, s, s, t);
    DiffersAt(HttpsPrefix, "x", 0);
    DiffersAt(HttpPrefix, "x", 0);
    DiffersAt(DxPrefix, "x", 0);
    DiffersAt(DoiOrgPrefix, "x", 0);
    assert t == DoiOrgPrefix + "x";
    StripOwnPrefix(DoiOrgPrefix, "x");
    NormalizeStages(t, t, t, "x");
  }

  /** Likewise a repeated `https://`. */
  lemma NormalizeNotIdempotentHttps()
    ensures Normalize("https://https://x") == "https://x"
    ensures Normalize("https://x") == "x"
  {
    var s, t := "https://https://x", "https://x";
    assert s == HttpsPrefix + t;
    StripOwnPrefix(HttpsPrefix, t);
    DiffersAt(HttpPrefix, t, 4);
    DiffersAt(DxPrefix, t, 0);
    DiffersAt(DoiOrgPrefix, t, 0);
    NormalizeStages(s, t, t, t);
    DiffersAt(HttpPrefix, "x", 0);
    DiffersAt(DxPrefix, "x", 0);
    DiffersAt(DoiOrgPrefix, "x", 0);
    assert t == HttpsPrefix + "x";
    StripOwnPrefix(HttpsPrefix, "x");
    NormalizeStages(t, "x", "x", "x");
  }
}

=== FILE: examples.dfy ===
/** Worked cases: what the service reports for particular author and date
    nodes in any successful response, and for particular failing ones. */
module ExtractorExamples {
  import opened Results
  import opened JsValue
  import opened Extractor
  import opened ExtractorProperties

  function Person(surname: string, given: string): Val {
    Obj([("surname", Str(surname)), ("given_name", Str(given))])
  }

  function Date(year: int): Val {
    Obj([("year", Int(year))])
  }

  lemma PersonNames(surname: string, given: string)
    ensures Get(Person(surname, given), "surname") == Str(surname)
    ensures Get(Person(surname, given), "given_name") == Str(given)
  {
    var fields := Person(surname, given).fields;
    NameKeysDiffer();
    assert fields[1..][0] == fields[1];
  }

  /* The author examples are stated for the article node; `ExtractAuthors`
     carries them over to every successful response whose article holds
     that node. */

  /** One author record gives one `"Surname, Given"` entry. */
  lemma SingleAuthor(article: Val)
    requires GetPath(article, PersonPath) == Person("Smith", "Jane")
    ensures Authors(article) == [Str("Smith, Jane")]
  {
    var jane := Person("Smith", "Jane");
    assert Authors(article) == [Str(SingleEntry(jane))];
    PersonNames("Smith", "Jane");
    assert SingleEntry(jane) == "Smith, Jane";
  }

  /** Two author records keep document order. */
  lemma TwoAuthorsInOrder(article: Val)
    requires GetPath(article, PersonPath) == Arr([Person("Smith", "Jane"), Person("Doe", "John")])
    ensures Authors(article) == [Str("Smith, Jane"), Str("Doe, John")]
  {
    var jane := Person("Smith", "Jane");
    var john := Person("Doe", "John");
    assert Authors(article) == PersonEntries([jane, john]);
    TwoEntries(jane, john);
    NamedEntries();
  }

  lemma TwoEntries(a: Val, b: Val)
    ensures PersonEntries([a, b]) == [PersonEntry(a), PersonEntry(b)]
  {
    var entries := PersonEntries([a, b]);
    assert |entries| == 2 && entries[0] == PersonEntry(a) && entries[1] == PersonEntry(b);
  }

  lemma NamedEntries()
    ensures PersonEntry(Person("Smith", "Jane")) == Str("Smith, Jane")
    ensures PersonEntry(Person("Doe", "John")) == Str("Doe, John")
  {
    PersonNames("Smith", "Jane");
    PersonNames("Doe", "John");
    PersonEntryOfStrings(Person("Smith", "Jane"), "Smith", "Jane");
    assert "Smith" + ", " + "Jane" == "Smith, Jane";
    PersonEntryOfStrings(Person("Doe", "John"), "Doe", "John");
    assert "Doe" + ", " + "John" == "Doe, John";
  }

  /** A person record in the registry's own order, given name first, with
      an ORCID beside the names, is still written `"Surname, Given"`. */
  lemma GivenNameFirst()
    ensures PersonEntry(Obj([("given_name", Str("Jane")), ("surname", Str("Smith")), ("ORCID", Str("0000-0002-1825-0097"))]))
      == Str("Smith, Jane")
  {
    var person := Obj([("given_name", Str("Jane")), ("surname", Str("Smith")), ("ORCID", Str("0000-0002-1825-0097"))]);
    NameKeysDiffer();
    assert person.fields[1..][0] == person.fields[1];
    PersonEntryOfStrings(person, "Smith", "Jane");
    assert "Smith" + ", " + "Jane" == "Smith, Jane";
  }

  /** A plain-text title is reported as it is. */
  lemma PlainTitle(ok: bool, doc: Val, doi: string)
    requires HasRecord(ok, doc)
    requires GetPath(doc, JournalPath + TitlePath) == Str("Dafny by example")
    ensures Extract(ok, doc, doi).Ok? && Extract(ok, doc, doi).value.title == "Dafny by example"
  {
    ExtractTitle(ok, doc, doi);
  }

  /** With a print and an online date, the first one's year is reported. */
  lemma FirstOfTwoDates(ok: bool, doc: Val, doi: string)
    requires HasRecord(ok, doc)
    requires Dates(doc) == Arr([Date(2019), Date(2020)])
    ensures Extract(ok, doc, doi).Ok? && Extract(ok, doc, doi).value.year == Int(2019)
  {
    ExtractYear(ok, doc, doi);
    FirstDateYear(Dates(doc));
  }

  lemma FirstDateYear(dates: Val)
    requires dates == Arr([Date(2019), Date(2020)])
    ensures dates.Arr? && |dates.elems| > 0 && Get(dates.elems[0], "year") == Int(2019)
  {
    assert dates.elems[0] == Date(2019);
  }

  /** A lone author with no given name is reported with the text
      `undefined`; the same record inside an array is reported by surname
      alone. */
  lemma LoneAuthorWithoutGivenName(article: Val)
    requires GetPath(article, PersonPath) == Obj([("surname", Str("Smith"))])
    ensures Authors(article) == [Str("Smith, undefined")]
    ensures PersonEntries([GetPath(article, PersonPath)]) == [Str("Smith")]
  {
    var smith := GetPath(article, PersonPath);
    SurnameOnly();
    assert Authors(article) == [Str(SingleEntry(smith))];
    assert PersonEntries([smith])[0] == PersonEntry(smith);
  }

  lemma SurnameOnly()
    ensures SingleEntry(Obj([("surname", Str("Smith"))])) == "Smith, undefined"
    ensures PersonEntry(Obj([("surname", Str("Smith"))])) == Str("Smith")
  {
    var smith := Obj([("surname", Str("Smith"))]);
    NameKeysDiffer();
    assert Get(smith, "surname") == Str("Smith");
    assert Get(smith, "given_name") == Undef;
    SingleEntryOfMissing(smith);
    assert ToJsString(Str("Smith")) + ", undefined" == "Smith, undefined";
  }

  /** An empty response shape means the DOI is not found. */
  lemma EmptyResponseNotFound(doi: string)
    ensures Extract(true, Obj([("doi_records", Obj([]))]), doi) == Err(NoMetadataMessage)
  {
    var empty := Obj([("doi_records", Obj([]))]);
    assert Get(empty, "doi_records") == Obj([]);
    assert GetPath(empty, JournalPath) == Undef;
    ExtractFailsWithoutJournal(empty, doi);
  }
}

=== FILE: extractor.dfy ===
/** The mapping from the parsed registry response to the flat metadata
    record (index.js:32-99): the two failure checks, `getNodeData`, the
    author and year shape handling, and the title join. */
module Extractor {
  import opened Results
  import opened JsValue
  import CrossRefQuery

  const FetchFailedMessage: string := "Failed to fetch metadata from CrossRef"
  const NoMetadataMessage: string := "No metadata found for the given DOI"

  /** The runtime's message when `Object.values` is given `undefined` or
      `null`. */
  const NotAnObjectMessage: string := "Cannot convert undefined or null to object"

  /** The runtime's message when a member is read, without optional
      chaining, from `undefined` or `null`. */
  function ReadPropertyMessage(v: Val, key: string): string
    requires Nullish(v)
  {
    "Cannot read properties of " + (if v.Undef? then "undefined" else "null") + " (reading '" + key + "')"
  }

  /** Where the journal record sits in a `unixref` response. */
  const JournalPath: seq<string> := ["doi_records", "doi_record", "crossref", "journal"]

  /** Where the author records sit, relative to the article node. */
  const PersonPath: seq<string> := ["contributors", "person_name"]

  /** Where the title sits, relative to the journal record. */
  const TitlePath: seq<string> := ["journal_article", "titles", "title"]

  /** The record the service returns. Every field but `title`, `authors` and
      `crossRefURL` is a value copied out of the tree (`Null` when it was
      missing or falsy); `year` is copied without that collapse, so it can
      be `Undef`, which JSON serialisation then leaves out. `abstractText`
      is the record's `abstract` key (`abstract` is reserved in Dafny). */
  datatype Metadata = Metadata(
    fullJournal: Val,
    shortJournal: Val,
    volume: Val,
    issue: Val,
    year: Val,
    title: string,
    firstPage: Val,
    lastPage: Val,
    doi: Val,
    authors: seq<Val>,
    abstractText: Val,
    crossRefURL: CrossRefQuery.Url)

  /** `getNodeData(container, tag)`, i.e. `container?.[tag] || null`: the
      value found when it is truthy, and `null` for a missing container, a
      missing member, or a falsy one. */
  function NodeData(container: Val, tag: string): (r: Val)
    ensures r == Null || Truthy(r)
    ensures Truthy(r) ==> r == Get(container, tag)
    ensures r == Null <==> !Truthy(Get(container, tag))
  {
    Or(Get(container, tag), Null)
  }

  /** `doc["doi_records"]?.["doi_record"]?.["crossref"]?.["journal"]`. Only
      the first access is unguarded, so only a nullish document throws. */
  function JournalNode(doc: Val): (r: Result<Val, string>)
    ensures r.Err? <==> Nullish(doc)
    ensures r.Ok? ==> r.value == GetPath(doc, JournalPath)
  {
    if Nullish(doc) then Err(ReadPropertyMessage(doc, "doi_records"))
    else Ok(Get(Get(Get(Get(doc, "doi_records"), "doi_record"), "crossref"), "journal"))
  }

  /** The two name keys are different, so a person record's fields can
      be read independently. */
  lemma NameKeysDiffer()
    ensures "given_name" != "surname"
  {
    assert "given_name"[0] != "surname"[0];
  }

  /** The author string for one element of an author array: `"S, G"` when
      both parts are truthy, otherwise `surname || given_name`, which is
      passed through as it is (possibly falsy, possibly not a string). */
  function PersonEntry(person: Val): (r: Val)
    ensures Truthy(r) <==> Truthy(Get(person, "surname")) || Truthy(Get(person, "given_name"))
    ensures !Truthy(Get(person, "given_name")) && Truthy(Get(person, "surname")) ==> r == Get(person, "surname")
    ensures !Truthy(Get(person, "surname")) ==> r == Get(person, "given_name")
  {
    var surname := Get(person, "surname");
    var givenName := Get(person, "given_name");
    if Truthy(surname) && Truthy(givenName) then
      Str(ToJsString(surname) + ", " + ToJsString(givenName))
    else
      Or(surname, givenName)
  }

  /** `people.map(...)` with `PersonEntry`: one entry per person, in order. */
  function PersonEntries(people: seq<Val>): (r: seq<Val>)
    ensures |r| == |people|
    ensures forall i :: 0 <= i < |people| ==> r[i] == PersonEntry(people[i])
  {
    if |people| == 0 then [] else [PersonEntry(people[0])] + PersonEntries(people[1..])
  }

  /** The author string for a lone, non-array `person_name`: always the
      template `${surname}, ${given_name}`, whatever the parts are. */
  function SingleEntry(person: Val): (r: string)
    ensures r != ""
    ensures Get(person, "surname").Str? && Get(person, "given_name").Str? ==>
      r == Get(person, "surname").s + ", " + Get(person, "given_name").s
  {
    ToJsString(Get(person, "surname")) + ", " + ToJsString(Get(person, "given_name"))
  }

  /** The `authors` field, computed from the article node. A missing or
      falsy `person_name` counts as an empty array. */
  function Authors(article: Val): (r: seq<Val>)
    ensures !Truthy(GetPath(article, PersonPath)) ==> r == []
    ensures GetPath(article, PersonPath).Arr? ==> r == PersonEntries(GetPath(article, PersonPath).elems)
    ensures Truthy(GetPath(article, PersonPath)) && !GetPath(article, PersonPath).Arr? ==>
      r == [Str(SingleEntry(GetPath(article, PersonPath)))]
  {
    var node := Or(Get(Get(article, "contributors"), "person_name"), Arr([]));
    match node
    case Arr(people) => PersonEntries(people)
    case _ => [Str(SingleEntry(node))]
  }

  /** The `year` field, computed from the issue node: the `year` of the
      first publication date when there are several, of the only one
      otherwise. */
  function Year(issue: Val): (r: Val)
    ensures var dates := Get(issue, "publication_date");
      && (dates.Arr? && |dates.elems| > 0 ==> r == Get(dates.elems[0], "year"))
      && (dates.Arr? && |dates.elems| == 0 ==> r == Undef)
      && (!dates.Arr? ==> r == Get(dates, "year"))
  {
    var dates := Get(issue, "publication_date");
    match dates
    case Arr(ds) => Get(if |ds| > 0 then ds[0] else Undef, "year")
    case _ => Get(dates, "year")
  }

  /** The characters of a string, each as a one-character string value. */
  function Chars(s: string): (r: seq<Val>)
    ensures |r| == |s|
    ensures forall i :: 0 <= i < |s| ==> r[i] == Str([s[i]])
  {
    seq(|s|, i requires 0 <= i < |s| => Str([s[i]]))
  }

  /** `Object.values(v)` for a value that is not nullish: the characters of
      a string, no values for a number, the elements of an array, the field
      values of an object in order. */
  function ObjectValues(v: Val): (r: seq<Val>)
    requires !Nullish(v)
    ensures v.Str? ==> |r| == |v.s| && forall i :: 0 <= i < |r| ==> r[i] == Str([v.s[i]])
    ensures v.Obj? ==> |r| == |v.fields| && forall i :: 0 <= i < |r| ==> r[i] == v.fields[i].1
  {
    match v
    case Str(s) => Chars(s)
    case Int(_) => []
    case Arr(xs) => xs
    case Obj(fields) => seq(|fields|, i requires 0 <= i < |fields| => fields[i].1)
  }

  /** `Object.values(node).join("")`: throws on a missing title node. */
  function Title(node: Val): (r: Result<string, string>)
    ensures r.Err? <==> Nullish(node)
    ensures r.Err? ==> r.error == NotAnObjectMessage
  {
    if Nullish(node) then Err(NotAnObjectMessage)
    else Ok(Join(ObjectValues(node), ""))
  }

  /** The `getNodeData` rule at a path: the value there when it is truthy,
      `null` otherwise. */
  function FieldAt(v: Val, path: seq<string>): (r: Val)
    ensures r == Null || Truthy(r)
  {
    var found := GetPath(v, path);
    if Truthy(found) then found else Null
  }

  /** The record built from a truthy journal node, its joined title and
      the DOI the query was built from. In `getDOIMetadata` the authors and
      the year are worked out before the title is joined. String conversion
      here ignores an object's own `toString`, so neither step can throw,
      and computing them after the title changes nothing. */
  function Record(records: Val, title: string, doi: string): (m: Metadata)
    ensures m.fullJournal == FieldAt(records, ["journal_metadata", "full_title"])
    ensures m.shortJournal == FieldAt(records, ["journal_metadata", "abbrev_title"])
    ensures m.volume == FieldAt(records, ["journal_issue", "journal_volume", "volume"])
    ensures m.issue == FieldAt(records, ["journal_issue", "issue"])
    ensures m.firstPage == FieldAt(records, ["journal_article", "pages", "first_page"])
    ensures m.lastPage == FieldAt(records, ["journal_article", "pages", "last_page"])
    ensures m.doi == FieldAt(records, ["journal_article", "doi_data", "doi"])
    ensures m.abstractText == FieldAt(records, ["journal_article", "abstract", "p"])
    ensures m.title == title
    ensures m.crossRefURL == CrossRefQuery.CrossRefUrl(doi)
  {
    var metadataNode := Get(records, "journal_metadata");
    var issueNode := Get(records, "journal_issue");
    var article := Get(records, "journal_article");
    Metadata(
      fullJournal := NodeData(metadataNode, "full_title"),
      shortJournal := NodeData(metadataNode, "abbrev_title"),
      volume := NodeData(Get(issueNode, "journal_volume"), "volume"),
      issue := NodeData(issueNode, "issue"),
      year := Year(issueNode),
      title := title,
      firstPage := NodeData(Get(article, "pages"), "first_page"),
      lastPage := NodeData(Get(article, "pages"), "last_page"),
      doi := NodeData(Get(article, "doi_data"), "doi"),
      authors := Authors(article),
      abstractText := NodeData(Get(article, "abstract"), "p"),
      crossRefURL := CrossRefQuery.CrossRefUrl(doi))
  }

  /** The response handling of `getDOIMetadata`, given the response's `ok`
      flag, the parsed body, and the normalised DOI the query was built
      from. */
  function Extract(ok: bool, doc: Val, doi: string): (r: Result<Metadata, string>)
    ensures !ok ==> r == Err(FetchFailedMessage)
    ensures r.Ok? ==> r.value.crossRefURL == CrossRefQuery.CrossRefUrl(doi)
  {
    if !ok then Err(FetchFailedMessage)
    else
      var records :- JournalNode(doc);
      if !Truthy(records) then Err(NoMetadataMessage)
      else
        var title :- Title(Get(Get(Get(records, "journal_article"), "titles"), "title"));
        Ok(Record(records, title, doi))
  }
}

=== FILE: jsvalue.dfy ===
/** JavaScript values as the XML parser hands them to the extractor, and the
    few pieces of JavaScript semantics the extractor relies on: optional
    member access (`v?.[key]`), truthiness, and string conversion. */
module JsValue {

  /** The tree produced by parsing an XML document. Element names become
      object keys (in document order), repeated elements become arrays, and
      text content becomes string or integer leaves. `Undef` is JavaScript's
      `undefined`, the value of any member that is not there. */
  datatype Val =
    | Undef
    | Null
    | Str(s: string)
    | Int(n: int)
    | Arr(elems: seq<Val>)
    | Obj(fields: seq<(string, Val)>)

  /** `undefined` or `null`: the two values whose member access throws and
      that optional chaining short-circuits on. */
  predicate Nullish(v: Val) {
    v.Undef? || v.Null?
  }

  /** JavaScript truthiness: `undefined`, `null`, `""` and `0` are falsy;
      every other string and number, and every array and object, is truthy. */
  predicate Truthy(v: Val)
    ensures Nullish(v) ==> !Truthy(v)
    ensures !Truthy(v) <==> v == Undef || v == Null || v == Str("") || v == Int(0)
  {
    match v
    case Undef => false
    case Null => false
    case Str(s) => s != ""
    case Int(n) => n != 0
    case Arr(_) => true
    case Obj(_) => true
  }

  /** JavaScript's `a || b`: `a` when it is truthy, `b` otherwise. */
  function Or(a: Val, b: Val): (r: Val)
    ensures Truthy(a) ==> r == a
    ensures !Truthy(a) ==> r == b
    ensures Truthy(r) <==> Truthy(a) || Truthy(b)
    ensures r == a || r == b
  {
    if Truthy(a) then a else b
  }

  /** Index `i` holds the first field named `key`. */
  ghost predicate FirstWithKey(fields: seq<(string, Val)>, key: string, i: int) {
    && 0 <= i < |fields|
    && fields[i].0 == key
    && forall j :: 0 <= j < i ==> fields[j].0 != key
  }

  /** Looks `key` up among an object's fields: the value of the first field
      with that name, or `undefined` when there is none. */
  function Lookup(fields: seq<(string, Val)>, key: string): (r: Val)
    ensures (forall i :: 0 <= i < |fields| ==> fields[i].0 != key) ==> r == Undef
    ensures forall i :: FirstWithKey(fields, key, i) ==> r == fields[i].1
  {
    if |fields| == 0 then Undef
    else if fields[0].0 == key then fields[0].1
    else Lookup(fields[1..], key)
  }

  /** Optional member access `v?.[key]`. Only objects have the named members
      the extractor asks for; on anything else, including `undefined` and
      `null`, the result is `undefined`. */
  function Get(v: Val, key: string): (r: Val)
    ensures !v.Obj? ==> r == Undef
    ensures v.Obj? && (forall i :: 0 <= i < |v.fields| ==> v.fields[i].0 != key) ==> r == Undef
    ensures v.Obj? ==> forall i :: FirstWithKey(v.fields, key, i) ==> r == v.fields[i].1
  {
    match v
    case Obj(fields) => Lookup(fields, key)
    case _ => Undef
  }

  /** A chain of optional member accesses `v?.[k0]?.[k1]...`. */
  function GetPath(v: Val, path: seq<string>): Val
    decreases |path|
  {
    if |path| == 0 then v else GetPath(Get(v, path[0]), path[1..])
  }

  /** Optional chaining short-circuits: once a step yields `undefined`, so
      does the whole rest of the chain. */
  lemma {:induction false} GetPathOfUndef(path: seq<string>)
    ensures GetPath(Undef, path) == Undef
    decreases |path|
  {
    if |path| > 0 {
      GetPathOfUndef(path[1..]);
    }
  }

  /** A chain of accesses can be split anywhere: following `p + q` is
      following `p` and then `q` from where `p` ends. */
  lemma {:induction false} GetPathAppend(v: Val, p: seq<string>, q: seq<string>)
    ensures GetPath(v, p + q) == GetPath(GetPath(v, p), q)
    decreases |p|
  {
    if |p| > 0 {
      assert (p + q)[0] == p[0];
      assert (p + q)[1..] == p[1..] + q;
      GetPathAppend(Get(v, p[0]), p[1..], q);
    } else {
      assert p + q == q;
    }
  }

  /** Decimal digits of a natural number, as `Number.prototype.toString`
      writes them. */
  function NatToDecimal(n: nat): (r: string)
    ensures |r| > 0
    ensures forall i :: 0 <= i < |r| ==> '0' <= r[i] <= '9'
    ensures r[0] == '0' <==> n == 0
    decreases n
  {
    var d := [(('0' as int) + n % 10) as char];
    if n < 10 then d else NatToDecimal(n / 10) + d
  }

  /** The number a string of decimal digits denotes, most significant
      digit first. */
  function DecimalValue(digits: string): nat
    requires forall i :: 0 <= i < |digits| ==> '0' <= digits[i] <= '9'
  {
    if |digits| == 0 then 0
    else DecimalValue(digits[..|digits| - 1]) * 10 + (digits[|digits| - 1] as int - '0' as int)
  }

  /** The digits `NatToDecimal` writes denote the number they were written
      for. */
  lemma {:induction false} NatToDecimalValue(n: nat)
    ensures DecimalValue(NatToDecimal(n)) == n
    decreases n
  {
    if n >= 10 {
      NatToDecimalValue(n / 10);
      var r := NatToDecimal(n);
      assert r[..|r| - 1] == NatToDecimal(n / 10);
    }
  }

  /** `String(n)` for an integer `n`: an optional `-` followed by decimal
      digits, with no leading zero. */
  function IntToDecimal(n: int): (r: string)
    ensures |r| > 0
    ensures (r[0] == '-') <==> n < 0
    ensures n < 0 ==> |r| > 1
    ensures forall i :: (if n < 0 then 1 else 0) <= i < |r| ==> '0' <= r[i] <= '9'
    ensures n < 0 ==> r[1] != '0'
    ensures n >= 0 ==> (r[0] == '0' <==> n == 0)
  {
    if n < 0 then "-" + NatToDecimal(-n) else NatToDecimal(n)
  }

  /** The text `String(n)` gives reads back as `n`: its digits denote the
      magnitude, and the sign is there exactly for a negative number. */
  lemma IntToDecimalValue(n: int)
    ensures n < 0 ==> DecimalValue(IntToDecimal(n)[1..]) == -n
    ensures n >= 0 ==> DecimalValue(IntToDecimal(n)) == n
  {
    if n < 0 {
      assert IntToDecimal(n)[1..] == NatToDecimal(-n);
      NatToDecimalValue(-n);
    } else {
      NatToDecimalValue(n);
    }
  }

  /** `String(v)`, which is also what a template literal `${v}` inserts.
      Arrays convert through `join(",")`; plain objects all convert to the
      same fixed text. */
  function ToJsString(v: Val): (r: string)
    ensures v.Str? ==> r == v.s
    ensures !v.Str? && !v.Arr? ==> |r| > 0
    decreases v, 1
  {
    match v
    case Undef => "undefined"
    case Null => "null"
    case Str(s) => s
    case Int(n) => IntToDecimal(n)
    case Arr(xs) => Join(xs, ",")
    case Obj(_) => "[object Object]"
  }

  /** `Array.prototype.join(sep)`: elements converted with `String`, except
      that `undefined` and `null` elements contribute the empty string. */
  function Join(xs: seq<Val>, sep: string): (r: string)
    ensures |xs| == 0 ==> r == ""
    ensures |xs| == 1 ==> r == (if Nullish(xs[0]) then "" else ToJsString(xs[0]))
    decreases xs, 0
  {
    if |xs| == 0 then ""
    else
      var head := if Nullish(xs[0]) then "" else ToJsString(xs[0]);
      if |xs| == 1 then head else head + sep + Join(xs[1..], sep)
  }

  /** Joining a concatenation is joining each part and putting one more
      separator between them. */
  lemma {:induction false} JoinAppend(xs: seq<Val>, ys: seq<Val>, sep: string)
    requires |xs| > 0 && |ys| > 0
    ensures Join(xs + ys, sep) == Join(xs, sep) + sep + Join(ys, sep)
    decreases |xs|
  {
    var zs := xs + ys;
    assert zs[0] == xs[0];
    if |xs| > 1 {
      assert zs[1..] == xs[1..] + ys;
      JoinAppend(xs[1..], ys, sep);
    } else {
      assert zs[1..] == ys;
    }
  }

  /** An `undefined` or `null` element adds its separator but no text. */
  lemma JoinNullishLast(xs: seq<Val>, v: Val, sep: string)
    requires |xs| > 0 && Nullish(v)
    ensures Join(xs + [v], sep) == Join(xs, sep) + sep
  {
    JoinAppend(xs, [v], sep);
  }
}

=== FILE: properties.dfy ===
/** What the extractor promises about its result, stated against paths in
    the parsed tree rather than against the steps that compute it. */
module ExtractorProperties {
  import opened Results
  import opened JsValue
  import opened Extractor
  import CrossRefQuery

  /** The journal record of a document that has one. */
  function Journal(doc: Val): Val {
    GetPath(doc, JournalPath)
  }

  /** The `person_name` node of a document's article. */
  function People(doc: Val): Val {
    GetPath(Journal(doc), ["journal_article"] + PersonPath)
  }

  /** The `publication_date` node of a document's issue. */
  function Dates(doc: Val): Val {
    GetPath(Journal(doc), ["journal_issue", "publication_date"])
  }

  /** The response yields a record: the status is ok, the journal record is
      present and truthy, and its article has a title node. */
  predicate HasRecord(ok: bool, doc: Val) {
    && ok
    && !Nullish(doc)
    && Truthy(Journal(doc))
    && !Nullish(GetPath(doc, JournalPath + TitlePath))
  }

  /** A document that cannot be read fails before anything is looked up. */
  lemma ExtractFailsUnreadable(doc: Val, doi: string)
    requires Nullish(doc)
    ensures Extract(true, doc, doi) == Err(ReadPropertyMessage(doc, "doi_records"))
  {
  }

  /** A missing or falsy journal record is "not found". */
  lemma ExtractFailsWithoutJournal(doc: Val, doi: string)
    requires !Nullish(doc) && !Truthy(Journal(doc))
    ensures Extract(true, doc, doi) == Err(NoMetadataMessage)
  {
    assert JournalNode(doc) == Ok(Journal(doc));
  }

  /** With a journal record but no title node, the title join throws. */
  lemma {:induction false} ExtractFailsWithoutTitle(doc: Val, doi: string)
    requires !Nullish(doc) && Truthy(Journal(doc))
    requires Nullish(GetPath(doc, JournalPath + TitlePath))
    ensures Extract(true, doc, doi) == Err(NotAnObjectMessage)
  {
    GetPathAppend(doc, JournalPath, TitlePath);
    assert JournalNode(doc) == Ok(Journal(doc));
  }

  /** A record comes back exactly when `HasRecord` holds; every other
      response is one of the failures above, in that order. */
  lemma {:induction false} ExtractSucceeds(ok: bool, doc: Val, doi: string)
    ensures Extract(ok, doc, doi).Ok? <==> HasRecord(ok, doc)
  {
    GetPathAppend(doc, JournalPath, TitlePath);
  }

  /** A returned record is the one assembled from the document's journal
      node. */
  lemma ExtractIsRecord(ok: bool, doc: Val, doi: string)
    requires HasRecord(ok, doc)
    ensures Extract(ok, doc, doi).Ok?
    ensures Extract(ok, doc, doi).value == Record(Journal(doc), Extract(ok, doc, doi).value.title, doi)
  {
    ExtractSucceeds(ok, doc, doi);
    assert JournalNode(doc) == Ok(Journal(doc));
  }

  /** Every optional field of a returned record is the `getNodeData` rule
      applied at that field's fixed path under the journal record, and the
      provenance URL is the query built from the DOI that was asked for. */
  lemma ExtractFields(ok: bool, doc: Val, doi: string)
    requires HasRecord(ok, doc)
    ensures Extract(ok, doc, doi).Ok?
    ensures var m := Extract(ok, doc, doi).value;
      && m.fullJournal == FieldAt(Journal(doc), ["journal_metadata", "full_title"])
      && m.shortJournal == FieldAt(Journal(doc), ["journal_metadata", "abbrev_title"])
      && m.volume == FieldAt(Journal(doc), ["journal_issue", "journal_volume", "volume"])
      && m.issue == FieldAt(Journal(doc), ["journal_issue", "issue"])
      && m.firstPage == FieldAt(Journal(doc), ["journal_article", "pages", "first_page"])
      && m.lastPage == FieldAt(Journal(doc), ["journal_article", "pages", "last_page"])
      && m.doi == FieldAt(Journal(doc), ["journal_article", "doi_data", "doi"])
      && m.abstractText == FieldAt(Journal(doc), ["journal_article", "abstract", "p"])
      && CrossRefQuery.QueriedDoi(m.crossRefURL) == Some(doi)
  {
    ExtractIsRecord(ok, doc, doi);
    CrossRefQuery.CrossRefUrlRoundTrip(doi);
  }

  /** The `title` of a returned record is the title node's values joined,
      so a plain-text title comes back as it is. */
  lemma ExtractTitle(ok: bool, doc: Val, doi: string)
    requires HasRecord(ok, doc)
    ensures Extract(ok, doc, doi).Ok?
    ensures Title(GetPath(doc, JournalPath + TitlePath)).Ok?
    ensures Extract(ok, doc, doi).value.title == Title(GetPath(doc, JournalPath + TitlePath)).value
    ensures GetPath(doc, JournalPath + TitlePath).Str? ==>
      Extract(ok, doc, doi).value.title == GetPath(doc, JournalPath + TitlePath).s
  {
    ExtractSucceeds(ok, doc, doi);
    GetPathAppend(doc, JournalPath, TitlePath);
    assert JournalNode(doc) == Ok(Journal(doc));
    var node := GetPath(doc, JournalPath + TitlePath);
    if node.Str? {
      TitleOfText(node.s);
    }
  }

  /** The `year` of a returned record: the first publication date's `year`
      when the dates form an array (`undefined` for an empty one), the lone
      date's `year` otherwise. */
  lemma ExtractYear(ok: bool, doc: Val, doi: string)
    requires HasRecord(ok, doc)
    ensures Extract(ok, doc, doi).Ok?
    ensures var dates := Dates(doc);
      var year := Extract(ok, doc, doi).value.year;
      && (dates.Arr? && |dates.elems| > 0 ==> year == Get(dates.elems[0], "year"))
      && (dates.Arr? && |dates.elems| == 0 ==> year == Undef)
      && (!dates.Arr? ==> year == Get(dates, "year"))
  {
    ExtractIsRecord(ok, doc, doi);
    var issue := Get(Journal(doc), "journal_issue");
    assert Extract(ok, doc, doi).value.year == Year(issue);
    assert Dates(doc) == Get(issue, "publication_date");
  }

  /** Listing several publication dates gives the year the first of them
      would give on its own. */
  lemma YearFirstDateWins(several: Val, single: Val)
    requires Get(several, "publication_date").Arr?
    requires |Get(several, "publication_date").elems| > 0
    requires Get(single, "publication_date") == Get(several, "publication_date").elems[0]
    requires !Get(single, "publication_date").Arr?
    ensures Year(several) == Year(single)
  {
  }

  /** The `authors` of a returned record, by the shape of `person_name`:
      none when it is missing or falsy, one entry per element and in the
      same order when it is an array, exactly one entry otherwise. */
  lemma ExtractAuthors(ok: bool, doc: Val, doi: string)
    requires HasRecord(ok, doc)
    ensures Extract(ok, doc, doi).Ok?
    ensures var node := People(doc);
      var authors := Extract(ok, doc, doi).value.authors;
      && (!Truthy(node) ==> authors == [])
      && (node.Arr? ==> |authors| == |node.elems|
                        && forall i :: 0 <= i < |authors| ==> authors[i] == PersonEntry(node.elems[i]))
      && (Truthy(node) && !node.Arr? ==> authors == [Str(SingleEntry(node))])
  {
    ExtractIsRecord(ok, doc, doi);
    GetPathAppend(Journal(doc), ["journal_article"], PersonPath);
  }

  /** Mapping persons commutes with concatenation: the author list of two
      runs of persons is the two author lists one after the other, so order
      is kept and nothing is merged or dropped. */
  lemma {:induction false} PersonEntriesAppend(a: seq<Val>, b: seq<Val>)
    ensures PersonEntries(a + b) == PersonEntries(a) + PersonEntries(b)
  {
    if |a| == 0 {
      assert a + b == b;
    } else {
      assert (a + b)[1..] == a[1..] + b;
      PersonEntriesAppend(a[1..], b);
    }
  }

  /** In an author array, two non-empty string names give
      `"Surname, Given"`, and a person with only one non-empty string name
      gives that name, whatever order the fields come in and whatever other
      fields the record carries. */
  lemma PersonEntryOfStrings(person: Val, surname: string, given: string)
    requires Get(person, "surname") == Str(surname) && Get(person, "given_name") == Str(given)
    ensures surname != "" && given != "" ==> PersonEntry(person) == Str(surname + ", " + given)
    ensures surname != "" && given == "" ==> PersonEntry(person) == Str(surname)
    ensures surname == "" ==> PersonEntry(person) == Str(given)
  {
  }

  /** With a name part falsy, an array entry is one of the two parts, so
      it is shorter than the lone-author template that holds both. */
  lemma SingleEntryLonger(person: Val)
    requires !(Truthy(Get(person, "surname")) && Truthy(Get(person, "given_name")))
    requires PersonEntry(person).Str?
    ensures |SingleEntry(person)| > |PersonEntry(person).s|
  {
    var surname, given := Get(person, "surname"), Get(person, "given_name");
    var entry := PersonEntry(person);
    assert entry == surname || entry == given;
    assert ToJsString(entry) == entry.s;
    assert SingleEntry(person) == ToJsString(surname) + ", " + ToJsString(given);
  }

  /** A lone person record is formatted like an array element exactly when
      both name parts are truthy. */
  lemma SingleEntryVersusArrayEntry(person: Val)
    ensures Truthy(Get(person, "surname")) && Truthy(Get(person, "given_name")) ==>
      Str(SingleEntry(person)) == PersonEntry(person)
    ensures Str(SingleEntry(person)) == PersonEntry(person) ==>
      Truthy(Get(person, "surname")) && Truthy(Get(person, "given_name"))
  {
    var surname, given := Get(person, "surname"), Get(person, "given_name");
    if !(Truthy(surname) && Truthy(given)) && PersonEntry(person).Str? {
      SingleEntryLonger(person);
    }
  }

  /** In a lone person record, a missing name part is spelled out as
      `undefined`. */
  lemma SingleEntryOfMissing(person: Val)
    ensures Get(person, "given_name") == Undef ==>
      SingleEntry(person) == ToJsString(Get(person, "surname")) + ", undefined"
    ensures Get(person, "surname") == Undef ==>
      SingleEntry(person) == "undefined, " + ToJsString(Get(person, "given_name"))
  {
    var surname, given := Get(person, "surname"), Get(person, "given_name");
    assert SingleEntry(person) == ToJsString(surname) + ", " + ToJsString(given);
    if given == Undef {
      assert ToJsString(surname) + ", " + "undefined" == ToJsString(surname) + ", undefined";
    }
    if surname == Undef {
      assert "undefined" + ", " + ToJsString(given) == "undefined, " + ToJsString(given);
    }
  }

  lemma {:induction false} JoinChars(s: string)
    ensures Join(Chars(s), "") == s
    decreases |s|
  {
    if |s| > 1 {
      assert Chars(s)[1..] == Chars(s[1..]);
      JoinChars(s[1..]);
      assert s == [s[0]] + s[1..];
    } else if |s| == 1 {
      assert s == [s[0]];
    }
  }

  /** A plain-text title comes back unchanged: joining the characters that
      `Object.values` splits it into rebuilds it. */
  lemma TitleOfText(s: string)
    ensures Title(Str(s)) == Ok(s)
  {
    JoinChars(s);
  }

  /** The strings of an object's fields, concatenated in order. */
  ghost function Concat(fields: seq<(string, Val)>): string
    requires forall i :: 0 <= i < |fields| ==> fields[i].1.Str?
  {
    if |fields| == 0 then "" else fields[0].1.s + Concat(fields[1..])
  }

  lemma {:induction false} JoinFieldValues(fields: seq<(string, Val)>)
    requires forall i :: 0 <= i < |fields| ==> fields[i].1.Str?
    ensures Join(ObjectValues(Obj(fields)), "") == Concat(fields)
    decreases |fields|
  {
    if |fields| > 1 {
      assert ObjectValues(Obj(fields))[1..] == ObjectValues(Obj(fields[1..]));
      JoinFieldValues(fields[1..]);
    }
  }

  /** A title split across formatting sub-nodes with text leaves is the
      concatenation of those pieces, in document order, with no separator. */
  lemma TitleOfParts(fields: seq<(string, Val)>)
    requires forall i :: 0 <= i < |fields| ==> fields[i].1.Str?
    ensures Title(Obj(fields)) == Ok(Concat(fields))
  {
    assert Title(Obj(fields)) == Ok(Join(ObjectValues(Obj(fields)), ""));
    JoinFieldValues(fields);
  }
}

=== FILE: query.dfy ===
/** The registry query built from a normalised DOI (index.js:12, 21-28).
    The URL is kept as its endpoint and its ordered parameter list; the
    percent-encoding that `URLSearchParams` applies when the URL is turned
    into text is not part of this model. */
module CrossRefQuery {
  import opened Results

  const Endpoint: string := "http://www.crossref.org/openurl/"

  /** The fixed contact address sent as the courtesy key `pid`. */
  const ContactKey: string := "fx.coudert@chimie-paristech.fr"

  const DoiScheme: string := "doi:"

  datatype Url = Url(endpoint: string, query: seq<(string, string)>)

  /** The parameter names in the order they are serialised. */
  function Names(query: seq<(string, string)>): (names: seq<string>)
    ensures |names| == |query|
    ensures forall i :: 0 <= i < |query| ==> names[i] == query[i].0
  {
    if |query| == 0 then [] else [query[0].0] + Names(query[1..])
  }

  /** Index `i` holds the first parameter called `name`. */
  ghost predicate FirstNamed(query: seq<(string, string)>, name: string, i: int) {
    && 0 <= i < |query|
    && query[i].0 == name
    && forall j :: 0 <= j < i ==> query[j].0 != name
  }

  /** `URLSearchParams.get`: the value of the first parameter called `name`,
      and nothing when no parameter has that name. */
  function Param(query: seq<(string, string)>, name: string): (r: Option<string>)
    ensures (forall i :: 0 <= i < |query| ==> query[i].0 != name) ==> r == None
    ensures forall i :: FirstNamed(query, name, i) ==> r == Some(query[i].1)
  {
    if |query| == 0 then None
    else if query[0].0 == name then Some(query[0].1)
    else Param(query[1..], name)
  }

  /** The URL the service queries for `doi` and echoes back as provenance. */
  function CrossRefUrl(doi: string): (url: Url)
    ensures url.endpoint == Endpoint
    ensures Param(url.query, "id") == Some(DoiScheme + doi)
  {
    Url(Endpoint, [("id", DoiScheme + doi), ("noredirect", "true"), ("pid", ContactKey), ("format", "unixref")])
  }

  /** Reads the DOI back out of a query URL: the `id` parameter without its
      `doi:` scheme. */
  function QueriedDoi(url: Url): (r: Option<string>)
    ensures r.Some? ==> Param(url.query, "id") == Some(DoiScheme + r.value)
    ensures Param(url.query, "id").Some? && DoiScheme <= Param(url.query, "id").value ==> r.Some?
  {
    match Param(url.query, "id")
    case Some(id) =>
      if DoiScheme <= id then
        var doi := id[|DoiScheme|..];
        assert id == DoiScheme + doi;
        Some(doi)
      else None
    case None => None
  }

  lemma CrossRefUrlNames(doi: string)
    ensures Names(CrossRefUrl(doi).query) == ["id", "noredirect", "pid", "format"]
  {
    var q := CrossRefUrl(doi).query;
    var names := Names(q);
    assert names[0] == "id" && names[1] == "noredirect" && names[2] == "pid" && names[3] == "format";
  }

  /** Parsing the provenance URL recovers every parameter it was built from:
      the DOI, the no-redirect flag, the contact key and the response format,
      under four distinct names in that fixed order. */
  lemma CrossRefUrlRoundTrip(doi: string)
    ensures CrossRefUrl(doi).endpoint == Endpoint
    ensures Names(CrossRefUrl(doi).query) == ["id", "noredirect", "pid", "format"]
    ensures QueriedDoi(CrossRefUrl(doi)) == Some(doi)
    ensures Param(CrossRefUrl(doi).query, "noredirect") == Some("true")
    ensures Param(CrossRefUrl(doi).query, "pid") == Some(ContactKey)
    ensures Param(CrossRefUrl(doi).query, "format") == Some("unixref")
  {
    CrossRefUrlNames(doi);
    var q := CrossRefUrl(doi).query;
    assert Param(q, "id") == Some(DoiScheme + doi);
    assert (DoiScheme + doi)[|DoiScheme|..] == doi;
    var q1, q2, q3 := q[1..], q[2..], q[3..];
    assert q1[1..] == q2 && q2[1..] == q3;
    assert q1[0].0 == "noredirect" && q2[0].0 == "pid" && q3[0].0 == "format";
    assert Param(q, "noredirect") == Param(q1, "noredirect");
    assert Param(q, "pid") == Param(q1, "pid") == Param(q2, "pid");
    assert Param(q, "format") == Param(q1, "format") == Param(q2, "format") == Param(q3, "format");
  }

  /** Different DOIs are never sent as the same query. */
  lemma CrossRefUrlInjective(a: string, b: string)
    requires CrossRefUrl(a) == CrossRefUrl(b)
    ensures a == b
  {
    CrossRefUrlRoundTrip(a);
    CrossRefUrlRoundTrip(b);
  }
}

=== FILE: results.dfy ===
/** Failure-carrying values: the model's stand-in for JavaScript exceptions.
    An operation that can throw returns a `Result` whose error part is the
    exception's message. */
module Results {

  datatype Option<+T> = None | Some(value: T)

  datatype Result<+T, +E> = Ok(value: T) | Err(error: E) {

    predicate IsFailure() {
      Err?
    }

    function PropagateFailure<U>(): Result<U, E>
      requires Err?
    {
      Err(error)
    }

    function Extract(): T
      requires Ok?
    {
      value
    }
  }
}

=== FILE: service.dfy ===
/** `getDOIMetadata` as a whole (index.js:11-99): the raw DOI is
    normalised, the query is built from the result, and the response to
    that query is mapped to the metadata record. The request itself is not
    modelled; the response's `ok` flag and parsed body are inputs. */
module Service {
  import opened Results
  import opened JsValue
  import Doi
  import CrossRefQuery
  import opened Extractor
  import opened ExtractorProperties

  /** The outcome of `getDOIMetadata(raw)` given the response to its query. */
  function GetDoiMetadata(raw: string, ok: bool, doc: Val): (r: Result<Metadata, string>)
    ensures !ok ==> r == Err(FetchFailedMessage)
    ensures r.Ok? ==> CrossRefQuery.QueriedDoi(r.value.crossRefURL) == Some(Doi.Normalize(raw))
  {
    CrossRefQuery.CrossRefUrlRoundTrip(Doi.Normalize(raw));
    Extract(ok, doc, Doi.Normalize(raw))
  }

  /** Whether a response yields a record does not depend on the DOI asked
      for: it is exactly `HasRecord`. */
  lemma GetDoiMetadataSucceeds(raw: string, ok: bool, doc: Val)
    ensures GetDoiMetadata(raw, ok, doc).Ok? <==> HasRecord(ok, doc)
  {
    ExtractSucceeds(ok, doc, Doi.Normalize(raw));
  }

  /** A DOI given bare, or behind any in-order selection of the four
      prefixes (a `https://doi.org/` link, a `dx.doi.org/` path, ...),
      produces the same query and so, for the same response, the same
      outcome. */
  lemma PrefixedFormsAgree(https: bool, http: bool, dx: bool, doiOrg: bool, x: string, ok: bool, doc: Val)
    requires Doi.Bare(x)
    ensures GetDoiMetadata(Doi.Chain(https, http, dx, doiOrg) + x, ok, doc) == GetDoiMetadata(x, ok, doc)
  {
    Doi.NormalizeStripsChain(https, http, dx, doiOrg, x);
  }
}
